=== FILE: README.md ===
# News dashboard: the form and list logic, modelled in Dafny

The news dashboard is a browser admin UI for news articles: a paged and filterable
article list, an article-creation form with a locally persisted draft, a featured-image
upload widget, a collapsible sidebar, a profile editor, and a GraphQL client that
attaches the stored bearer token to every request. Nearly all of it is presentation.
This project lifts out the small amount of sequential logic that sits inside those
components. It states that logic as pure transitions over immutable records and
proves what the components promise about it.

Modules, one per component plus three shared ones:

- `Wrappers`: `Option`, standing for `null`/`undefined` next to a present value.
- `Text`: ECMAScript `trim()` (`Trim`, with `IsBlank`/`IsTrimmed`) and the string
  fallback `value || fallback` (`OrElse`).
- `Seqs`: `RemoveAll` (`list.filter(x => x !== v)`) and the `NoDuplicates` invariant.
- `Domain`: the `NewsStatus` enum of the schema, `UserRole`, and the image record
  `NewsImageData`.
- `NewsCreate`: the create-article form. It covers submit validation and payload,
  tags, draft save/hydrate/clear, and the category list lookup.
- `NewsList`: the list page. It covers page/offset arithmetic, prev/next, the
  "showing X to Y" range, the status filter, the status badge and the row fallbacks.
- `Sidebar`: the navigation table, the expanded-sections list and its toggle, and the
  visibility and highlight predicates (`ItemsShown`, `IsActive`).
- `AuthLink`: the per-request header function of the GraphQL client.
- `Profile`: the profile submit handler. It covers the mismatch guard, the update
  input, the user merge and the password reset.
- `FeaturedImage`: the featured-image widget's events.

Modelling conventions:

- Each event handler is one atomic transition. On the list page the offset effect
  runs inside every transition. On the create page the draft-save effect is the
  separate step `SaveDraft`: `AddTag`, `RemoveTag`, `Hydrate` and `ClearDraft`
  return the form, and the save that follows each of them is a further step. So
  `ClearDraft`'s storage is the storage right after `removeItem`; the next render
  writes the initial-value draft back (`ClearDraftThenReload` covers both).
- Browser storage is a map from key to stored record. A stored draft is `Parsed(d)`
  when `JSON.parse` accepts it and yields an object. A primitive JSON value such as `5`
  or `"x"` also parses, but all its fields read as `undefined`: that is `Parsed` with
  every field `None`, and every field falls back to its default. It is `Unparseable`
  when parsing throws, when the parsed value's fields cannot be read (a stored `null`),
  or when the stored string is empty and is skipped. Storing the record itself stands for
  `JSON.parse(JSON.stringify(x)) == x` on plain strings, arrays and objects.
- Network calls are outcome parameters (`Outcome`). The upload dialog is the result
  record it calls back with. Whether the code runs in a browser is a boolean parameter.
- JavaScript truthiness of a string is "non-empty". An object field is `Missing`,
  `Null` or `Val(v)` where spreading tells them apart (`Profile.Slot`). Elsewhere
  `None` stands for a missing or null field.

## Model

| member | source | states |
|---|---|---|
| Text.Trim | src/app/dashboard/news/create/page.tsx:76-89 | `trim()` leaves no whitespace at either end and is empty exactly when the input is all whitespace, so `!x.trim()` means "blank" |
| Text.SkipBlanks | src/app/dashboard/news/create/page.tsx:123 | the forward scan of `trim()`: the index it stops at follows only whitespace and holds a non-whitespace character, or is the end |
| Text.SkipBlanksBack | src/app/dashboard/news/create/page.tsx:123 | the backward scan of `trim()`: everything from the index it stops at is whitespace, and the character before it is not |
| Text.TrimStart | src/app/dashboard/news/create/page.tsx:123 | the leading-whitespace half of `trim()`: a suffix of the input preceded only by whitespace |
| Text.TrimEnd | src/app/dashboard/news/create/page.tsx:123 | the trailing-whitespace half of `trim()`: a prefix of the input followed only by whitespace |
| Text.TrimCharacterization | src/app/dashboard/news/create/page.tsx:123-124 | for any blank prefix, trimmed core and blank suffix, trimming yields exactly the core |
| Text.TrimIdempotent | src/app/dashboard/news/create/page.tsx:123-124 | a tag that was trimmed once is unchanged by trimming again |
| Text.OrElse | src/app/dashboard/news/create/page.tsx:40-48 | `value \|\| fallback` keeps a present non-empty string and falls back for a missing or empty one |
| Seqs.RemoveAll | src/app/dashboard/news/create/page.tsx:137 | filtering out a value removes every occurrence and keeps every other element |
| Seqs.RemoveAllAppend | src/components/layout/Sidebar.tsx:66 | filtering distributes over concatenation, so the survivors keep their relative order |
| Seqs.RemoveAllCounts | src/app/dashboard/news/create/page.tsx:137 | filtering drops exactly the occurrences of the value; every other value keeps its count |
| Seqs.RemoveAllAbsent | src/app/dashboard/news/create/page.tsx:137 | filtering out an absent value leaves the list as it was |
| Seqs.RemoveAllNoDuplicates | src/components/layout/Sidebar.tsx:66 | filtering keeps a duplicate-free list duplicate-free |
| Seqs.AppendNoDuplicates | src/components/layout/Sidebar.tsx:67 | appending an absent value keeps a list duplicate-free |
| Seqs.RemoveAllAfterAppend | src/components/layout/Sidebar.tsx:65-67 | appending an absent value and filtering it out gives the original list back |
| Domain.ParseStatus | src/graphql/news.ts:5-9 | a string reads as a status exactly when it is that status's wire name |
| Domain.StatusNameRoundTrip | src/graphql/news.ts:5-9 | each status survives a trip through its non-empty wire name |
| FeaturedImage.Mount | src/components/News/FeaturedImageUpload.tsx:21-24 | the metadata inputs start from the image's fields, or '' when missing, and no upload is in progress |
| FeaturedImage.HasUrl | src/components/News/FeaturedImageUpload.tsx:54 | `imageData?.url` is truthy exactly when there is an image with a non-empty url |
| FeaturedImage.ShowsUploader | src/components/News/FeaturedImageUpload.tsx:66 | the upload area shows when there is no image or its url is empty, the preview otherwise |
| FeaturedImage.OnOpen | src/components/News/FeaturedImageUpload.tsx:80-83 | opening the dialog starts the spinner and emits nothing |
| FeaturedImage.OnUpload | src/components/News/FeaturedImageUpload.tsx:26-38 | the spinner always stops; an image is emitted exactly on `success`, with the secure url, `isMain` and the current metadata |
| FeaturedImage.OnRemove | src/components/News/FeaturedImageUpload.tsx:40-51 | remove emits a main image without url and with empty metadata, and clears the inputs |
| FeaturedImage.OnMetadataBlur | src/components/News/FeaturedImageUpload.tsx:53-62 | an image is emitted exactly when the current one has a url; url and `isMain` are kept, only the metadata is replaced |
| FeaturedImage.MountRestoresMetadata | src/components/News/FeaturedImageUpload.tsx:21-37 | a widget created on an image it uploaded shows the inputs that image was built from; the create page never creates one that way (see `NewsCreate.ReloadRestoresImageButNotItsInputs`) |
| FeaturedImage.RemoveShowsUploader | src/components/News/FeaturedImageUpload.tsx:40-51 | after remove the upload area is shown again and a remount starts from empty inputs |
| FeaturedImage.UploadHidesUploader | src/components/News/FeaturedImageUpload.tsx:66 | after a successful upload the upload area is shown exactly when the returned url is empty |
| FeaturedImage.MetadataBlurIdempotent | src/components/News/FeaturedImageUpload.tsx:53-62 | re-saving the same metadata emits the same image |
| NewsCreate.Validate | src/app/dashboard/news/create/page.tsx:76-94 | the guard passes exactly for a complete form; otherwise it reports title, category, content, image, in that order, the first that fails |
| Text.NullIfEmpty | src/app/dashboard/news/create/page.tsx:102-105 | an optional string is sent as null exactly when empty, and no information is lost |
| NewsCreate.BuildPayload | src/app/dashboard/news/create/page.tsx:99-109 | summary, slug and publish date are null exactly when empty; the other six fields pass through unchanged |
| NewsCreate.Submit | src/app/dashboard/news/create/page.tsx:72-120 | a payload is sent exactly for a complete form; a failing guard shows its message; success removes the draft and navigates to the list; a thrown error shows its message or the default |
| NewsCreate.RemovedImageFailsValidation | src/app/dashboard/news/create/page.tsx:91 | the image emitted by "remove" is rejected as a missing featured image |
| NewsCreate.AddTag | src/app/dashboard/news/create/page.tsx:122-127 | the trimmed input is appended and the input cleared exactly when it is non-blank and not yet a tag; otherwise nothing changes |
| NewsCreate.RemoveTag | src/app/dashboard/news/create/page.tsx:136-138 | every occurrence of the tag goes, every other tag stays with its count, nothing else changes |
| NewsCreate.RemoveTagKeepsOrder | src/app/dashboard/news/create/page.tsx:137 | removal works piecewise on any split of the tag list, so the remaining tags keep their original order |
| NewsCreate.AddTagKeepsTagsWellFormed | src/app/dashboard/news/create/page.tsx:122-127 | adding keeps the tags duplicate-free, trimmed and non-empty |
| NewsCreate.RemoveTagKeepsTagsWellFormed | src/app/dashboard/news/create/page.tsx:136-138 | removing keeps the tags duplicate-free, trimmed and non-empty |
| NewsCreate.RemoveTagUndoesAddTag | src/app/dashboard/news/create/page.tsx:122-138 | removing the tag just added restores the previous tag list |
| NewsCreate.AddTagIdempotent | src/app/dashboard/news/create/page.tsx:122-127 | a second add of the same input changes nothing |
| NewsCreate.SaveDraft | src/app/dashboard/news/create/page.tsx:56-70 | saving writes the draft under its key and leaves every other key untouched |
| NewsCreate.DraftOf | src/app/dashboard/news/create/page.tsx:57-67 | the stored draft carries every one of the nine fields, each with the form's value |
| NewsCreate.Hydrate | src/app/dashboard/news/create/page.tsx:35-53 | a parseable draft overwrites the nine fields with per-field defaults; a missing or unparseable one leaves the form as it is; tag input and error stay |
| NewsCreate.DraftRoundTrip | src/app/dashboard/news/create/page.tsx:40-69 | save then hydrate restores all nine fields exactly when the status is non-empty |
| NewsCreate.DraftRoundTripLosesEmptyStatus | src/app/dashboard/news/create/page.tsx:46 | an empty status comes back as "DRAFT", so the proviso above is needed |
| NewsCreate.ClearDraft | src/app/dashboard/news/create/page.tsx:141-154 | on confirmation the draft is removed and the nine fields return to the initial state, tag input and error kept; otherwise nothing changes |
| NewsCreate.ClearDraftThenReload | src/app/dashboard/news/create/page.tsx:17-26 | after clearing, a reload starts from the initial form, even after the save effect has re-run |
| NewsCreate.SubmitSuccessThenReload | src/app/dashboard/news/create/page.tsx:114 | after a successful submit a reload starts from the initial form |
| NewsCreate.ReloadRestoresImageButNotItsInputs | src/app/dashboard/news/create/page.tsx:34-49 | after a reload the draft restores the featured image, but the widget, created earlier with no image, shows empty metadata inputs and its first blur sends the image back with that metadata emptied |
| NewsCreate.CategoryListAsWrittenIsEmpty | src/app/dashboard/news/create/page.tsx:31-32 | the list read under `getCategories` is empty for every server answer, so a select-chosen category always fails the guard |
| NewsCreate.CategoryListOffersEveryCategory | src/graphql/news.ts:160-168 | read under `categories`, every returned category is offered and passes the category check |
| NewsCreate.CategoryListAsWritten | src/app/dashboard/news/create/page.tsx:32 | the list read under `getCategories` is empty when there is no answer or the answer has no such field, and is that field's list when the answer carries it |
| NewsCreate.CategoryList | src/app/dashboard/news/create/page.tsx:32 | the list read under `categories` is the answer's category list whenever the answer carries it |
| NewsList.SyncOffset | src/app/dashboard/news/page.tsx:48-51 | the offset skips exactly the items of the earlier pages and nothing else changes |
| NewsList.FilterFor | src/app/dashboard/news/page.tsx:41 | there is a filter exactly when the status is set and non-empty, and it carries that status |
| NewsList.ChangeStatus | src/app/dashboard/news/page.tsx:53-57 | a status change resets to page 1 with offset 0; the empty "All" value clears the status, any other value becomes the filter |
| NewsList.Variables | src/app/dashboard/news/page.tsx:41-44 | the query goes out with the page's limit and an offset that skips all earlier pages, and carries a filter exactly when the status is non-empty |
| NewsList.SelectOptionsFilter | src/app/dashboard/news/page.tsx:110-120 | each status option filters on that status; "All" filters on nothing |
| NewsList.PaginationShown | src/app/dashboard/news/page.tsx:257 | on every valid page the controls are shown exactly when the first page has a next page, i.e. when the total does not fit on one page; on the first page that is exactly when "Next" is enabled |
| NewsList.PrevDisabled | src/app/dashboard/news/page.tsx:262 | "Previous" is disabled exactly when the current page starts at the first row |
| NewsList.NextDisabled | src/app/dashboard/news/page.tsx:269 | "Next" is disabled exactly when no row follows the current page |
| NewsList.Prev | src/app/dashboard/news/page.tsx:261-262 | "Previous" never goes below page 1 and stays put exactly when the button is disabled |
| NewsList.ClickNext | src/app/dashboard/news/page.tsx:268-269 | a disabled "Next" does nothing; an enabled one moves one page on |
| NewsList.ClickPrev | src/app/dashboard/news/page.tsx:260-262 | a disabled "Previous" does nothing; an enabled one moves back |
| NewsList.TransitionsKeepValid | src/app/dashboard/news/page.tsx:35-57 | from the initial state every transition keeps page >= 1 and the offset in step |
| NewsList.HiddenPaginationLosesNothing | src/app/dashboard/news/page.tsx:257 | when the controls are hidden the first page already reaches the total |
| NewsList.NextStaysInRange | src/app/dashboard/news/page.tsx:268-269 | an enabled "Next" lands on a page that starts inside the results |
| NewsList.PrevUndoesNext | src/app/dashboard/news/page.tsx:261-269 | "Previous" undoes an enabled "Next" |
| NewsList.NextUndoesPrev | src/app/dashboard/news/page.tsx:261-269 | "Next" undoes an enabled "Previous" on a page that starts inside the results |
| NewsList.RangeStart | src/app/dashboard/news/page.tsx:278 | the first row shown is the one right after the skipped offset |
| NewsList.RangeEnd | src/app/dashboard/news/page.tsx:279 | the last row shown is the smaller of the page's end and the total |
| NewsList.RangeBounds | src/app/dashboard/news/page.tsx:278-279 | the range never passes the total, is non-empty on a page inside the results and spans at most one page |
| NewsList.NextEnabledIffRowsRemain | src/app/dashboard/news/page.tsx:269-279 | "Next" is enabled exactly when rows remain after the displayed range |
| NewsList.BadgeClass | src/app/dashboard/news/page.tsx:59-70 | each known status gets its own badge and any other string the gray one |
| NewsList.BadgeClasses | src/app/dashboard/news/page.tsx:59-70 | the badge is gray exactly for strings other than PUBLISHED and ARCHIVED, and those two differ |
| NewsList.DisplayDate | src/app/dashboard/news/page.tsx:213 | the publish date is shown, or the creation date when it is empty |
| NewsList.NameOr | src/app/dashboard/news/page.tsx:205-216 | a present non-empty name is shown, otherwise the fallback |
| NewsList.LabelsNeverEmpty | src/app/dashboard/news/page.tsx:205-216 | the category and author columns are never blank and show the name when there is one |
| Sidebar.InitiallyAllGroupsExpanded | src/components/layout/Sidebar.tsx:31-61 | the initial expanded list is exactly the group sections of the table, each once |
| Sidebar.Toggle | src/components/layout/Sidebar.tsx:63-69 | a present section is removed, an absent one appended, and no other section changes membership |
| Sidebar.ToggleKeepsNoDuplicates | src/components/layout/Sidebar.tsx:63-69 | toggling keeps the expanded list duplicate-free |
| Sidebar.ToggleTwice | src/components/layout/Sidebar.tsx:63-69 | toggling twice restores membership, and the exact list when the section started collapsed |
| Sidebar.ToggleFlipsItemsShown | src/components/layout/Sidebar.tsx:99-104 | toggling a group flips whether its items are shown and leaves every other group's visibility alone |
| Sidebar.IsLink | src/components/layout/Sidebar.tsx:84 | an entry with a non-empty href and an icon renders as a direct link, not as a group |
| Sidebar.GroupNames | src/components/layout/Sidebar.tsx:82-104 | a name is a group header exactly when some non-link entry of the table carries it |
| Sidebar.ItemsShown | src/components/layout/Sidebar.tsx:104 | a link's or an item-less group's items are never shown, and shown items belong to an expanded name |
| Sidebar.IsActive | src/components/layout/Sidebar.tsx:88-111 | a link is highlighted exactly when the current path agrees with its href character for character |
| AuthLink.Decorate | src/lib/apollo-wrapper.tsx:27-32 | `authorization` is `Bearer <token>` for a non-empty token and '' otherwise; every other incoming header is kept unchanged |
| AuthLink.CurrentToken | src/lib/apollo-wrapper.tsx:19-25 | outside a browser no token is read; in a browser the token is whatever storage holds |
| AuthLink.AuthorizationValue | src/lib/apollo-wrapper.tsx:30 | the header value is empty exactly for a missing or empty token, and is the bearer prefix plus the token otherwise |
| AuthLink.AuthContext | src/lib/apollo-wrapper.tsx:18-33 | every request gets an authorization header, carrying the stored token only in a browser, and keeps all other incoming headers |
| AuthLink.DecorateCarriesToken | src/lib/apollo-wrapper.tsx:30 | the header carries the token back verbatim exactly when there is a non-empty token |
| AuthLink.DecorateIdempotent | src/lib/apollo-wrapper.tsx:18-33 | running the header function twice with the same token is running it once |
| AuthLink.ServerSideIsAnonymous | src/lib/apollo-wrapper.tsx:19-30 | outside a browser no token is read, so every request carries an empty authorization header |
| Profile.InitialForm | src/app/dashboard/profile/page.tsx:12-18 | name and email start from the user, or '', and the password fields start empty |
| Profile.PasswordMismatch | src/app/dashboard/profile/page.tsx:29 | no mismatch is reported when no new password was typed or when the confirmation matches |
| Profile.BuildInput | src/app/dashboard/profile/page.tsx:35-43 | the input is name and email, plus current and new password exactly when a new password was typed |
| Profile.Merge | src/app/dashboard/profile/page.tsx:54 | name and email come from the answer when it carries them, from the stored user otherwise |
| Profile.MergeFieldwise | src/app/dashboard/profile/page.tsx:54 | every other user field follows the same rule: the answer's key wins, the stored value stays otherwise |
| Profile.MergeIdempotent | src/app/dashboard/profile/page.tsx:54 | merging the same answer twice is merging it once, and an empty answer keeps the user |
| Profile.ResetPasswords | src/app/dashboard/profile/page.tsx:56-62 | after success the three password fields are empty and name and email are kept |
| Profile.Submit | src/app/dashboard/profile/page.tsx:25-67 | a mismatch alerts and sends nothing; otherwise the request is sent; only an answer with `updateUser` logs in the merged user with the token or '', shows the message and resets the passwords |
| Profile.SuccessMessageIffUpdated | src/app/dashboard/profile/page.tsx:27-55 | the success message is shown, and the session updated, exactly when the update went through and was answered |
| Profile.ResubmitAfterSuccess | src/app/dashboard/profile/page.tsx:29-62 | after a successful update a resubmit sends no password change and cannot hit the mismatch guard |

## Findings

| source | as written | input that shows it | evidently intended | confidence | as-written member | corrected member |
|---|---|---|---|---|---|---|
| src/app/dashboard/news/create/page.tsx:32 | the category list is read from `categoriesData?.getCategories`, but the query (src/graphql/news.ts:160-168) selects the field `categories`, so the list is always `[]` and the select offers only "Select a category" (value '') | any server answer, e.g. one category `{id: "c1"}`: no option "c1" exists, so no category can be chosen and the required select (create/page.tsx:256) blocks every submit; were that native check bypassed, the guard at :81-83 would report "Category is required" | read the list from `categoriesData?.categories` | high (not executed) | NewsCreate.CategoryListAsWrittenIsEmpty | NewsCreate.CategoryListOffersEveryCategory |

## Left out

- Rendering and CSS classes are left out. The status badge classes are kept as opaque strings. The dashboard, home and layout pages are presentation only.
- `formatDate` is left out because it relies on `Date` and locale formatting. `DisplayDate` models only which string is passed to it.
- `localStorage` and `JSON.parse`/`JSON.stringify` are abstracted as the `Storage` map and the `Blob` record. A draft field holding a non-string JSON value is not modelled.
- The network calls (`useQuery`, `useMutation`) are outcome parameters. Loading flags and the Apollo cache and link pipeline are left out.
- The list query `GET_ALL_NEWS_QUERY` declares a required `$sort: NewsSortInput!` variable (src/graphql/news.ts:136) that the list page never supplies. Under GraphQL's variable coercion a missing non-null variable without a default is a request error, so every list query the page sends would be rejected by a conforming server (not executed). The sort input's shape is not visible, so `NewsList.Variables` carries limit, offset and filter only.
- The upload dialog, the asset service and the rich-text editor are not modelled. CloudinaryUploadWidget.tsx, CloudinaryProvider.tsx, lib/cloudinary.ts and RichTextEditor.tsx wrap libraries that are not visible here.
- The Navbar, the login and register pages (placeholders), next.config.js and the providers are not part of this model.
- The auth context that stores the session is not part of this model. A `login` call is recorded as the `Session` it would store.
- React effect scheduling and async ordering are not modelled. Each handler is one atomic step. The mount-time save effect runs with the initial values before hydration re-renders, and strict mode runs effects twice. Neither interleaving is modelled, and neither is the transient list query that runs before the offset effect catches up.
- Dates are the strings the inputs and the server give; only their truthiness matters here. Page numbers, the page size, offsets and totals are unbounded integers. JavaScript's floating-point numbers agree with them for any realistic page count.
- `window.confirm` and `alert` are modelled as a `confirmed` parameter and an `alerted` flag.
- FeaturedImage.Mount: the widget reads its metadata inputs only when it is created (src/components/News/FeaturedImageUpload.tsx:21-23). The create page renders it at once (src/app/dashboard/news/create/page.tsx:214-217), while the form holds no image, so a draft image restored later never reaches the inputs. The model does not re-mount the widget on a restored image, and `MountRestoresMetadata` does not describe the create page after a reload; `NewsCreate.ReloadRestoresImageButNotItsInputs` states what happens instead.
- Icons are a flag on the section.

=== FILE: auth_link.dfy ===
/**
 * The request decoration the GraphQL client runs before every request: the
 * stored token, read afresh each time, becomes the `authorization` header.
 */
module AuthLink {
  import opened Wrappers

  /** Request headers by name; names are compared exactly, as object keys are. */
  type Headers = map<string, string>

  const AuthorizationKey := "authorization"
  const BearerPrefix := "Bearer "

  /**
   * The token the link sees: what storage holds under `token` when running in a
   * browser; outside a browser there is no storage and no token.
   */
  function CurrentToken(inBrowser: bool, storedToken: Option<string>): (r: Option<string>)
    ensures !inBrowser ==> r.None?
    ensures inBrowser ==> r == storedToken
  {
    if inBrowser then storedToken else None
  }

  /** The header value: `Bearer <token>` for a non-empty token, '' otherwise. */
  function AuthorizationValue(token: Option<string>): (r: string)
    ensures r == "" <==> token.None? || token.value == ""
    ensures r != "" ==> r == BearerPrefix + token.value
  {
    if token.Some? && token.value != "" then BearerPrefix + token.value else ""
  }

  /**
   * `{ ...headers, authorization }`: every incoming header except `authorization`
   * is kept as is, and `authorization` is set whatever it was before. Missing
   * incoming headers spread as none.
   */
  function Decorate(incoming: Option<Headers>, token: Option<string>): (r: Headers)
    ensures AuthorizationKey in r
    ensures token.Some? && token.value != "" ==> r[AuthorizationKey] == BearerPrefix + token.value
    ensures token.None? || token.value == "" ==> r[AuthorizationKey] == ""
    ensures forall k :: k != AuthorizationKey ==> (k in r <==> incoming.Some? && k in incoming.value)
    ensures forall k :: k != AuthorizationKey && k in r ==> r[k] == incoming.value[k]
  {
    var base := if incoming.Some? then incoming.value else map[];
    base[AuthorizationKey := AuthorizationValue(token)]
  }

  /** The context function as a whole: storage read, then decoration. */
  function AuthContext(inBrowser: bool, storedToken: Option<string>, incoming: Option<Headers>): (r: Headers)
    ensures AuthorizationKey in r
    ensures inBrowser && storedToken.Some? && storedToken.value != "" ==> r[AuthorizationKey] == BearerPrefix + storedToken.value
    ensures !inBrowser || storedToken.None? || storedToken.value == "" ==> r[AuthorizationKey] == ""
    ensures forall k :: k != AuthorizationKey ==> (k in r <==> incoming.Some? && k in incoming.value)
    ensures forall k :: k != AuthorizationKey && k in r ==> r[k] == incoming.value[k]
  {
    Decorate(incoming, CurrentToken(inBrowser, storedToken))
  }

  /** Reads the token back out of an `authorization` value, if it carries one. */
  function BearerToken(value: string): Option<string> {
    if |value| > |BearerPrefix| && value[..|BearerPrefix|] == BearerPrefix
    then Some(value[|BearerPrefix|..]) else None
  }

  /** The header carries the token exactly when there is a non-empty one, and carries it verbatim. */
  lemma DecorateCarriesToken(incoming: Option<Headers>, token: Option<string>)
    ensures var r := Decorate(incoming, token);
      BearerToken(r[AuthorizationKey]) == (if token.Some? && token.value != "" then token else None)
  {
    var v := Decorate(incoming, token)[AuthorizationKey];
    if token.Some? && token.value != "" {
      assert v[..|BearerPrefix|] == BearerPrefix;
      assert v[|BearerPrefix|..] == token.value;
    }
  }

  /** Decorating twice with the same token is decorating once: the link may run again safely. */
  lemma DecorateIdempotent(incoming: Option<Headers>, token: Option<string>)
    ensures Decorate(Some(Decorate(incoming, token)), token) == Decorate(incoming, token)
  {
  }

  /** Outside a browser every request goes out with an empty authorization header. */
  lemma ServerSideIsAnonymous(storedToken: Option<string>, incoming: Option<Headers>)
    ensures AuthContext(false, storedToken, incoming)[AuthorizationKey] == ""
  {
  }
}

=== FILE: domain.dfy ===
/**
 * Shared domain types: the article status enum of the GraphQL schema, the user
 * roles, and the image record the featured-image widget hands to the form.
 */
module Domain {
  import opened Wrappers

  /** The `NewsStatus` enum of the schema. */
  datatype NewsStatus = DRAFT | PUBLISHED | ARCHIVED

  /** The wire name of a status, as the selects and the server spell it. */
  function StatusName(st: NewsStatus): string {
    match st
    case DRAFT => "DRAFT"
    case PUBLISHED => "PUBLISHED"
    case ARCHIVED => "ARCHIVED"
  }

  /** Reads a wire name back; anything other than the three names is not a status. */
  function ParseStatus(s: string): (r: Option<NewsStatus>)
    ensures forall st :: r == Some(st) <==> s == StatusName(st)
  {
    if s == "DRAFT" then Some(DRAFT)
    else if s == "PUBLISHED" then Some(PUBLISHED)
    else if s == "ARCHIVED" then Some(ARCHIVED)
    else None
  }

  /** The three wire names are distinct and non-empty, so a status survives a trip through its name. */
  lemma StatusNameRoundTrip(st: NewsStatus)
    ensures ParseStatus(StatusName(st)) == Some(st)
    ensures StatusName(st) != ""
  {
  }

  /** The `UserRole` union of the user type. */
  datatype UserRole = ADMIN | EDITOR | JOURNALIST

  /** `NewsImageData`: optional metadata fields are `None` when the key is absent. */
  datatype Image = Image(
    url: string,
    isMain: bool,
    caption: Option<string>,
    altText: Option<string>,
    credit: Option<string>)
}

=== FILE: featured_image.dfy ===
/**
 * The featured-image widget as a state machine. Its local state is the three
 * metadata inputs and the upload spinner; every event yields the next local
 * state and, possibly, an image handed to the form through `onImageUpload`.
 * The hosted upload dialog is abstracted as the result record it calls back with.
 */
module FeaturedImage {
  import opened Wrappers
  import opened Text
  import opened Domain

  /** Local state: caption, alt text and credit inputs, and whether an upload is in progress. */
  datatype Widget = Widget(caption: string, altText: string, credit: string, uploading: bool)

  /** One event's effect: the next local state and the image emitted to the form, if any. */
  datatype Step = Step(widget: Widget, emitted: Option<Image>)

  /** What the upload dialog reports: its event name and the hosted file's secure url. */
  datatype UploadResult = UploadResult(event: string, secureUrl: string)

  /** `imageData?.url` is truthy: there is an image and its url is non-empty. */
  function HasUrl(imageData: Option<Image>): (r: bool)
    ensures r ==> imageData.Some? && |imageData.value.url| > 0
    ensures imageData.Some? && |imageData.value.url| > 0 ==> r
  {
    imageData.Some? && imageData.value.url != ""
  }

  /** The upload area is rendered instead of the preview exactly when there is no usable url. */
  function ShowsUploader(imageData: Option<Image>): (r: bool)
    ensures imageData.None? ==> r
    ensures imageData.Some? ==> (r <==> imageData.value.url == "")
  {
    !HasUrl(imageData)
  }

  /** The image that "remove" emits: no url, still marked main, metadata emptied. */
  const RemovedImage := Image("", true, Some(""), Some(""), Some(""))

  /** The metadata an image carries, as the widget's inputs would show it. */
  function MetadataOf(image: Image): (string, string, string) {
    (OrElse(image.caption, ""), OrElse(image.altText, ""), OrElse(image.credit, ""))
  }

  /** Initial local state: each input starts from the image's field, or '' when it is missing. */
  function Mount(imageData: Option<Image>): (w: Widget)
    ensures !w.uploading
    ensures imageData.None? ==> w.caption == "" && w.altText == "" && w.credit == ""
    ensures imageData.Some? ==> (w.caption, w.altText, w.credit) == MetadataOf(imageData.value)
  {
    var caption := if imageData.Some? then imageData.value.caption else None;
    var altText := if imageData.Some? then imageData.value.altText else None;
    var credit := if imageData.Some? then imageData.value.credit else None;
    Widget(OrElse(caption, ""), OrElse(altText, ""), OrElse(credit, ""), false)
  }

  /** Clicking the upload area opens the dialog and starts the spinner; nothing is emitted. */
  function OnOpen(w: Widget): (r: Step)
    ensures r.widget.uploading
    ensures r.widget.(uploading := w.uploading) == w
    ensures r.emitted.None?
  {
    Step(w.(uploading := true), None)
  }

  /**
   * The dialog's callback. The spinner stops whatever the event; only a
   * `success` event emits an image, built from the secure url and the current inputs.
   */
  function OnUpload(w: Widget, result: UploadResult): (r: Step)
    ensures !r.widget.uploading
    ensures r.widget.(uploading := w.uploading) == w
    ensures r.emitted.Some? <==> result.event == "success"
    ensures r.emitted.Some? ==> r.emitted.value.url == result.secureUrl && r.emitted.value.isMain
    ensures r.emitted.Some? ==> MetadataOf(r.emitted.value) == (w.caption, w.altText, w.credit)
    ensures r.emitted.Some? ==>
      && r.emitted.value.caption == Some(w.caption)
      && r.emitted.value.altText == Some(w.altText)
      && r.emitted.value.credit == Some(w.credit)
  {
    var stopped := w.(uploading := false);
    if result.event != "success" then Step(stopped, None)
    else Step(stopped, Some(Image(result.secureUrl, true, Some(w.caption), Some(w.altText), Some(w.credit))))
  }

  /** "Remove image": emits an image without url and clears the metadata inputs. */
  function OnRemove(w: Widget): (r: Step)
    ensures r.emitted.Some? && !HasUrl(r.emitted) && r.emitted.value.isMain
    ensures MetadataOf(r.emitted.value) == ("", "", "")
    ensures r.emitted.value.caption == Some("") && r.emitted.value.altText == Some("") && r.emitted.value.credit == Some("")
    ensures r.widget == Widget("", "", "", w.uploading)
  {
    Step(Widget("", "", "", w.uploading), Some(RemovedImage))
  }

  /**
   * Leaving a metadata input: emits the current image with its metadata replaced
   * by the inputs, but only while the image has a url. Url and main flag are kept.
   */
  function OnMetadataBlur(w: Widget, imageData: Option<Image>): (r: Option<Image>)
    ensures r.Some? <==> HasUrl(imageData)
    ensures r.Some? ==> r.value.url == imageData.value.url && r.value.isMain == imageData.value.isMain
    ensures r.Some? ==> MetadataOf(r.value) == (w.caption, w.altText, w.credit)
    ensures r.Some? ==> r.value.caption == Some(w.caption) && r.value.altText == Some(w.altText) && r.value.credit == Some(w.credit)
  {
    if HasUrl(imageData) then
      Some(imageData.value.(caption := Some(w.caption), altText := Some(w.altText), credit := Some(w.credit)))
    else None
  }

  /** Remounting the widget on an image it emitted shows the inputs the image was built from. */
  lemma MountRestoresMetadata(w: Widget, result: UploadResult)
    requires result.event == "success"
    ensures var r := OnUpload(w, result);
      Mount(r.emitted) == Widget(w.caption, w.altText, w.credit, false)
  {
  }

  /** After "remove" the upload area is shown again and a remount starts from empty inputs. */
  lemma RemoveShowsUploader(w: Widget)
    ensures ShowsUploader(OnRemove(w).emitted)
    ensures Mount(OnRemove(w).emitted) == Widget("", "", "", false)
  {
  }

  /** A successful upload swaps the upload area for the preview exactly when the dialog returned a url. */
  lemma UploadHidesUploader(w: Widget, result: UploadResult)
    requires result.event == "success"
    ensures ShowsUploader(OnUpload(w, result).emitted) <==> result.secureUrl == ""
  {
  }

  /** Saving the metadata a second time with the same inputs emits the same image. */
  lemma MetadataBlurIdempotent(w: Widget, imageData: Option<Image>)
    requires HasUrl(imageData)
    ensures OnMetadataBlur(w, OnMetadataBlur(w, imageData)) == OnMetadataBlur(w, imageData)
  {
  }
}

=== FILE: news_create.dfy ===
/**
 * The "create news article" form as pure transitions over an immutable record:
 * submit-time validation and payload, the tag list, and the draft kept in
 * browser storage. Storage is an abstract key-to-record map; a stored blob is
 * either a parsed draft record or something `JSON.parse` rejects.
 */
module NewsCreate {
  import opened Wrappers
  import opened Text
  import opened Seqs
  import opened Domain
  import FeaturedImage

  /** The form's state: the nine draft fields, the tag input and the error banner. */
  datatype Form = Form(
    title: string,
    content: string,
    summary: string,
    slug: string,
    categoryId: string,
    publishDate: string,
    status: string,
    featuredImage: Option<Image>,
    currentTag: string,
    tags: seq<string>,
    errorMessage: string)

  /** The state the page mounts with. */
  const InitialForm := Form("", "", "", "", "", "", "DRAFT", None, "", [], "")

  /** The storage key the draft lives under. */
  const DraftKey := "news_draft_data"

  const TitleRequired := "Title is required"
  const CategoryRequired := "Category is required"
  const ContentRequired := "Content is required"
  const ImageRequired := "Featured image is required"
  const CreateFailed := "An error occurred while creating the news article"

  /** Where a successful submit navigates. */
  const NewsListRoute := "/dashboard/news"

  /** A parsed draft: each field is `None` when its key is missing or null. */
  datatype RawDraft = RawDraft(
    title: Option<string>,
    content: Option<string>,
    summary: Option<string>,
    slug: Option<string>,
    categoryId: Option<string>,
    publishDate: Option<string>,
    status: Option<string>,
    featuredImage: Option<Image>,
    tags: Option<seq<string>>)

  /** A stored value: one `JSON.parse` accepts (as the record it yields) or one it rejects. */
  datatype Blob = Unparseable | Parsed(draft: RawDraft)

  type Storage = map<string, Blob>

  /** The `input` of the create mutation. */
  datatype Payload = Payload(
    title: string,
    content: string,
    summary: Option<string>,
    slug: Option<string>,
    categoryId: string,
    publishDate: Option<string>,
    status: string,
    tags: seq<string>,
    featuredImage: Option<Image>)

  /** How the create mutation ended: resolved, or threw with an error message. */
  datatype Outcome = Created | Threw(message: string)

  /** What one submit does: next form, next storage, the payload sent (if any), the route pushed (if any). */
  datatype SubmitStep = SubmitStep(form: Form, storage: Storage, sent: Option<Payload>, navigateTo: Option<string>)

  // ----- Validation and payload -----

  /** Everything the submit guard demands, stated without `trim()`. */
  predicate IsComplete(f: Form) {
    && !IsBlank(f.title)
    && f.categoryId != ""
    && !IsBlank(f.content)
    && FeaturedImage.HasUrl(f.featuredImage)
  }

  /**
   * The submit guard: title, category, content and featured image are checked in
   * that order and the first failure's message is reported.
   */
  function Validate(f: Form): (r: Option<string>)
    ensures r.None? <==> IsComplete(f)
    ensures r == Some(TitleRequired) <==> IsBlank(f.title)
    ensures r == Some(CategoryRequired) <==> !IsBlank(f.title) && f.categoryId == ""
    ensures r == Some(ContentRequired) <==> !IsBlank(f.title) && f.categoryId != "" && IsBlank(f.content)
    ensures r == Some(ImageRequired) <==>
      !IsBlank(f.title) && f.categoryId != "" && !IsBlank(f.content) && !FeaturedImage.HasUrl(f.featuredImage)
  {
    if Trim(f.title) == "" then Some(TitleRequired)
    else if f.categoryId == "" then Some(CategoryRequired)
    else if Trim(f.content) == "" then Some(ContentRequired)
    else if f.featuredImage.None? || f.featuredImage.value.url == "" then Some(ImageRequired)
    else None
  }

  /** The mutation input built from the form. */
  function BuildPayload(f: Form): (p: Payload)
    ensures p.summary.None? <==> f.summary == ""
    ensures p.slug.None? <==> f.slug == ""
    ensures p.publishDate.None? <==> f.publishDate == ""
    ensures OrElse(p.summary, "") == f.summary && OrElse(p.slug, "") == f.slug
    ensures OrElse(p.publishDate, "") == f.publishDate
    ensures p.title == f.title && p.content == f.content && p.categoryId == f.categoryId
    ensures p.status == f.status && p.tags == f.tags && p.featuredImage == f.featuredImage
  {
    Payload(f.title, f.content, NullIfEmpty(f.summary), NullIfEmpty(f.slug), f.categoryId,
            NullIfEmpty(f.publishDate), f.status, f.tags, f.featuredImage)
  }

  /**
   * Submit: the error banner is cleared, then the guard runs. A failing guard shows
   * its message and sends nothing. Otherwise the payload is sent; success removes
   * the draft and navigates to the list, a thrown error shows its message.
   */
  function Submit(f: Form, storage: Storage, outcome: Outcome): (r: SubmitStep)
    ensures r.sent.Some? <==> IsComplete(f)
    ensures r.sent.Some? ==> r.sent.value == BuildPayload(f)
    ensures !IsComplete(f) ==>
      r.form == f.(errorMessage := Validate(f).value) && r.storage == storage && r.navigateTo.None?
    ensures IsComplete(f) && outcome.Created? ==>
      && r.form == f.(errorMessage := "")
      && r.storage == storage - {DraftKey}
      && r.navigateTo == Some(NewsListRoute)
    ensures IsComplete(f) && outcome.Threw? ==>
      && r.form == f.(errorMessage := OrElse(Some(outcome.message), CreateFailed))
      && r.storage == storage && r.navigateTo.None?
  {
    var cleared := f.(errorMessage := "");
    match Validate(f)
    case Some(message) => SubmitStep(cleared.(errorMessage := message), storage, None, None)
    case None =>
      var sent := Some(BuildPayload(f));
      match outcome
      case Created => SubmitStep(cleared, storage - {DraftKey}, sent, Some(NewsListRoute))
      case Threw(message) =>
        SubmitStep(cleared.(errorMessage := OrElse(Some(message), CreateFailed)), storage, sent, None)
  }

  /** The image "remove" emits never gets past the guard: it is reported as a missing featured image. */
  lemma RemovedImageFailsValidation(f: Form)
    requires !IsBlank(f.title) && f.categoryId != "" && !IsBlank(f.content)
    ensures Validate(f.(featuredImage := Some(FeaturedImage.RemovedImage))) == Some(ImageRequired)
  {
  }

  // ----- Tags -----

  /** The tag-list invariant: no duplicates, every tag trimmed and non-empty. */
  predicate TagsWellFormed(tags: seq<string>) {
    && NoDuplicates(tags)
    && forall i :: 0 <= i < |tags| ==> tags[i] != "" && IsTrimmed(tags[i])
  }

  /**
   * "Add tag": the trimmed input is appended when it is non-empty and not yet in
   * the list, and only then is the input cleared. Nothing else changes.
   */
  function AddTag(f: Form): (r: Form)
    ensures r == f.(tags := r.tags, currentTag := r.currentTag)
    ensures !IsBlank(f.currentTag) && Trim(f.currentTag) !in f.tags ==>
      r.tags == f.tags + [Trim(f.currentTag)] && r.currentTag == ""
    ensures IsBlank(f.currentTag) || Trim(f.currentTag) in f.tags ==> r == f
  {
    var tag := Trim(f.currentTag);
    if tag != "" && tag !in f.tags then f.(tags := f.tags + [tag], currentTag := "") else f
  }

  /** "Remove tag": every occurrence goes, the other tags stay; nothing else changes. */
  function RemoveTag(f: Form, tag: string): (r: Form)
    ensures r == f.(tags := r.tags)
    ensures tag !in r.tags
    ensures forall t :: t in r.tags <==> t in f.tags && t != tag
    ensures multiset(r.tags) == multiset(f.tags)[tag := 0]
  {
    RemoveAllCounts(f.tags, tag);
    f.(tags := RemoveAll(f.tags, tag))
  }

  /** Removing a tag keeps the other tags in their original order: it works piecewise on any split of the list. */
  lemma RemoveTagKeepsOrder(f: Form, tag: string, a: seq<string>, b: seq<string>)
    requires f.tags == a + b
    ensures RemoveTag(f, tag).tags == RemoveTag(f.(tags := a), tag).tags + RemoveTag(f.(tags := b), tag).tags
  {
    RemoveAllAppend(a, b, tag);
  }

  /** Adding a tag keeps the tag list well formed. */
  lemma AddTagKeepsTagsWellFormed(f: Form)
    requires TagsWellFormed(f.tags)
    ensures TagsWellFormed(AddTag(f).tags)
  {
    var tag := Trim(f.currentTag);
    if tag != "" && tag !in f.tags {
      AppendKeepsTagsWellFormed(f.tags, tag);
    }
  }

  /** Appending a trimmed, non-empty, new tag keeps the tag list well formed. */
  lemma AppendKeepsTagsWellFormed(tags: seq<string>, tag: string)
    requires TagsWellFormed(tags)
    requires tag != "" && IsTrimmed(tag) && tag !in tags
    ensures TagsWellFormed(tags + [tag])
  {
    AppendNoDuplicates(tags, tag);
    var tags' := tags + [tag];
    forall i | 0 <= i < |tags'| ensures tags'[i] != "" && IsTrimmed(tags'[i]) {
      if i < |tags| { assert tags'[i] == tags[i]; }
    }
  }

  /** Removing a tag keeps the tag list well formed. */
  lemma RemoveTagKeepsTagsWellFormed(f: Form, tag: string)
    requires TagsWellFormed(f.tags)
    ensures TagsWellFormed(RemoveTag(f, tag).tags)
  {
    RemoveAllNoDuplicates(f.tags, tag);
    var tags := RemoveTag(f, tag).tags;
    forall i | 0 <= i < |tags| ensures tags[i] != "" && IsTrimmed(tags[i]) {
      assert tags[i] in f.tags;
    }
  }

  /** Removing the tag just added gives back the old tag list. */
  lemma RemoveTagUndoesAddTag(f: Form)
    requires TagsWellFormed(f.tags)
    requires Trim(f.currentTag) !in f.tags
    ensures RemoveTag(AddTag(f), Trim(f.currentTag)).tags == f.tags
  {
    var tag := Trim(f.currentTag);
    if tag != "" {
      RemoveAllAfterAppend(f.tags, tag);
    } else {
      assert "" !in f.tags;
      RemoveAllAbsent(f.tags, "");
    }
  }

  /** A second "add" of the same text is a no-op: the input is gone or the tag is present. */
  lemma AddTagIdempotent(f: Form)
    ensures AddTag(AddTag(f)) == AddTag(f)
  {
  }

  // ----- Draft persistence -----

  /** The record the save effect stores: the nine draft fields. */
  function DraftOf(f: Form): (d: RawDraft)
    ensures d.title.Some? && d.content.Some? && d.summary.Some? && d.slug.Some?
    ensures d.categoryId.Some? && d.publishDate.Some? && d.status.Some? && d.tags.Some?
    ensures d.title.value == f.title && d.content.value == f.content && d.summary.value == f.summary
    ensures d.slug.value == f.slug && d.categoryId.value == f.categoryId
    ensures d.publishDate.value == f.publishDate && d.status.value == f.status
    ensures d.featuredImage == f.featuredImage && d.tags.value == f.tags
  {
    RawDraft(Some(f.title), Some(f.content), Some(f.summary), Some(f.slug), Some(f.categoryId),
             Some(f.publishDate), Some(f.status), f.featuredImage, Some(f.tags))
  }

  /** The save effect: the draft key now holds the form's draft, every other key is untouched. */
  function SaveDraft(f: Form, storage: Storage): (r: Storage)
    ensures DraftKey in r && r[DraftKey] == Parsed(DraftOf(f))
    ensures forall k :: k != DraftKey ==> (k in r <==> k in storage)
    ensures forall k :: k != DraftKey && k in storage ==> r[k] == storage[k]
  {
    storage[DraftKey := Parsed(DraftOf(f))]
  }

  /**
   * The mount effect: a stored, parseable draft overwrites the nine fields, each
   * falling back to its default ('' / "DRAFT" / no image / no tags) when missing or
   * empty. A missing or unparseable draft leaves the form as it is.
   */
  function Hydrate(f: Form, storage: Storage): (r: Form)
    ensures r.currentTag == f.currentTag && r.errorMessage == f.errorMessage
    ensures DraftKey !in storage || storage[DraftKey].Unparseable? ==> r == f
    ensures DraftKey in storage && storage[DraftKey].Parsed? ==>
      var d := storage[DraftKey].draft;
      && r.title == OrElse(d.title, "") && r.content == OrElse(d.content, "")
      && r.summary == OrElse(d.summary, "") && r.slug == OrElse(d.slug, "")
      && r.categoryId == OrElse(d.categoryId, "") && r.publishDate == OrElse(d.publishDate, "")
      && r.status == OrElse(d.status, "DRAFT")
      && r.featuredImage == d.featuredImage && r.tags == d.tags.GetOr([])
  {
    if DraftKey !in storage then f
    else match storage[DraftKey]
      case Unparseable => f
      case Parsed(d) =>
        f.(title := OrElse(d.title, ""), content := OrElse(d.content, ""),
           summary := OrElse(d.summary, ""), slug := OrElse(d.slug, ""),
           categoryId := OrElse(d.categoryId, ""), publishDate := OrElse(d.publishDate, ""),
           status := OrElse(d.status, "DRAFT"), featuredImage := d.featuredImage,
           tags := d.tags.GetOr([]))
  }

  /** The form with its nine draft fields taken from `src` and the rest from `dst`. */
  function WithDraftFields(dst: Form, src: Form): Form {
    src.(currentTag := dst.currentTag, errorMessage := dst.errorMessage)
  }

  /** Save then hydrate restores all nine fields exactly, provided the status is non-empty. */
  lemma DraftRoundTrip(f: Form, g: Form, storage: Storage)
    requires f.status != ""
    ensures Hydrate(g, SaveDraft(f, storage)) == WithDraftFields(g, f)
  {
  }

  /** The proviso is needed: an empty status comes back as "DRAFT". */
  lemma DraftRoundTripLosesEmptyStatus(f: Form, g: Form, storage: Storage)
    requires f.status == ""
    ensures Hydrate(g, SaveDraft(f, storage)).status == "DRAFT"
    ensures Hydrate(g, SaveDraft(f, storage)) != WithDraftFields(g, f)
  {
  }

  /**
   * "Clear draft" after the user confirms: the stored draft is removed and the
   * nine fields return to their initial values; tag input and error banner stay.
   * Declining the confirmation changes nothing. The save effect that the reset
   * re-runs is the separate step `SaveDraft`.
   */
  function ClearDraft(f: Form, storage: Storage, confirmed: bool): (r: (Form, Storage))
    ensures confirmed ==> r.0 == WithDraftFields(f, InitialForm) && r.1 == storage - {DraftKey}
    ensures !confirmed ==> r == (f, storage)
  {
    if confirmed then (WithDraftFields(f, InitialForm), storage - {DraftKey}) else (f, storage)
  }

  /** After "clear draft", a reload starts from the initial form, even once the save effect has re-run. */
  lemma ClearDraftThenReload(f: Form, storage: Storage)
    ensures var (cleared, s) := ClearDraft(f, storage, true);
      && Hydrate(InitialForm, s) == InitialForm
      && Hydrate(InitialForm, SaveDraft(cleared, s)) == InitialForm
  {
  }

  /** After a successful submit the draft is gone, so a reload starts from the initial form. */
  lemma SubmitSuccessThenReload(f: Form, storage: Storage)
    requires IsComplete(f)
    ensures Hydrate(InitialForm, Submit(f, storage, Created).storage) == InitialForm
  {
  }

  /**
   * The featured-image widget is created once, while the form still holds no image, and
   * its metadata inputs are never re-read from the image the draft restores afterwards.
   * After a reload the image comes back, but its caption, alt-text and credit inputs start
   * empty, and the first blur sends the image back with that metadata emptied.
   */
  lemma ReloadRestoresImageButNotItsInputs(storage: Storage, img: Image)
    requires DraftKey in storage && storage[DraftKey].Parsed?
    requires storage[DraftKey].draft.featuredImage == Some(img) && img.url != ""
    ensures Hydrate(InitialForm, storage).featuredImage == Some(img)
    ensures FeaturedImage.Mount(InitialForm.featuredImage) == FeaturedImage.Widget("", "", "", false)
    ensures FeaturedImage.OnMetadataBlur(FeaturedImage.Mount(InitialForm.featuredImage), Some(img))
      == Some(img.(caption := Some(""), altText := Some(""), credit := Some("")))
  {
  }

  // ----- Category options -----

  /** A category as the categories query returns it. */
  datatype Category = Category(id: string, name: string, slug: string)

  /** The `data` of a query: its top-level response fields by name. */
  datatype QueryData = QueryData(fields: map<string, seq<Category>>)

  /** The response to the categories query: its only top-level field is named `categories`. */
  function CategoriesResponse(categories: seq<Category>): QueryData {
    QueryData(map["categories" := categories])
  }

  /** `data?.<field> || []`. */
  function FieldOrEmpty(data: Option<QueryData>, field: string): seq<Category> {
    if data.Some? && field in data.value.fields then data.value.fields[field] else []
  }

  /** The category list as the page reads it, under the field name `getCategories`. */
  function CategoryListAsWritten(data: Option<QueryData>): (r: seq<Category>)
    ensures data.None? ==> r == []
    ensures data.Some? && "getCategories" !in data.value.fields ==> r == []
    ensures data.Some? && "getCategories" in data.value.fields ==> r == data.value.fields["getCategories"]
  {
    FieldOrEmpty(data, "getCategories")
  }

  /** The category list read under the field name the query selects. */
  function CategoryList(data: Option<QueryData>): (r: seq<Category>)
    ensures data.None? ==> r == []
    ensures data.Some? && "categories" in data.value.fields ==> r == data.value.fields["categories"]
    ensures data.Some? && "categories" !in data.value.fields ==> r == []
  {
    FieldOrEmpty(data, "categories")
  }

  /** The values the category select offers: the placeholder '' and every category id. */
  function SelectableCategoryIds(categories: seq<Category>): set<string> {
    {""} + set c | c in categories :: c.id
  }

  /**
   * As written, whatever categories the server returns, the select offers only the
   * placeholder, so no category can be chosen and the required select blocks every
   * submit; were that native check bypassed, the guard would report "Category is
   * required" once the title is filled in.
   */
  lemma CategoryListAsWrittenIsEmpty(categories: seq<Category>, f: Form, id: string)
    requires id in SelectableCategoryIds(CategoryListAsWritten(Some(CategoriesResponse(categories))))
    requires !IsBlank(f.title)
    ensures CategoryListAsWritten(Some(CategoriesResponse(categories))) == []
    ensures Validate(f.(categoryId := id)) == Some(CategoryRequired)
  {
  }

  /** Read under `categories`, every returned category is offered, and picking one passes the category check. */
  lemma CategoryListOffersEveryCategory(categories: seq<Category>, c: Category, f: Form)
    requires c in categories && c.id != ""
    ensures CategoryList(Some(CategoriesResponse(categories))) == categories
    ensures c.id in SelectableCategoryIds(CategoryList(Some(CategoriesResponse(categories))))
    ensures Validate(f.(categoryId := c.id)) != Some(CategoryRequired)
  {
  }
}

=== FILE: news_list.dfy ===
/**
 * The news list page's paging and filtering state. Each handler is one atomic
 * transition that also runs the offset effect, so `offset` is always in step
 * with `page` and `limit` afterwards.
 */
module NewsList {
  import opened Wrappers
  import opened Text
  import opened Domain

  /** The page size the page starts with; nothing changes it afterwards. */
  const PageSize := 10

  /** Page number (1-based), page size, status filter (`null` = all) and the derived offset. */
  datatype ListState = ListState(page: int, limit: int, status: Option<string>, offset: int)

  const InitialList := ListState(1, PageSize, None, 0)

  /** The list query's `filter` argument. */
  datatype Filter = Filter(status: string)

  /** The list query's variables. */
  datatype QueryVariables = QueryVariables(limit: int, offset: int, filter: Option<Filter>)

  /** The state every transition keeps: page at least 1, a positive size and an offset in step. */
  predicate Valid(s: ListState) {
    s.page >= 1 && s.limit >= 1 && s.offset == (s.page - 1) * s.limit
  }

  /** The offset effect: the offset skips the items of all earlier pages. */
  function SyncOffset(s: ListState): (r: ListState)
    ensures r.offset == (r.page - 1) * r.limit
    ensures r.(offset := s.offset) == s
  {
    s.(offset := (s.page - 1) * s.limit)
  }

  /** `status ? { status } : undefined`: a filter only for a non-empty status. */
  function FilterFor(status: Option<string>): (r: Option<Filter>)
    ensures r.Some? <==> status.Some? && status.value != ""
    ensures r.Some? ==> r.value.status == status.value
  {
    if status.Some? && status.value != "" then Some(Filter(status.value)) else None
  }

  /** The variables the list query is sent with: the page's size and offset, and the filter of a non-empty status. */
  function Variables(s: ListState): (r: QueryVariables)
    ensures r.limit == s.limit
    ensures Valid(s) ==> r.limit >= 1 && r.offset == (s.page - 1) * r.limit
    ensures r.filter.Some? <==> s.status.Some? && s.status.value != ""
    ensures r.filter.Some? ==> r.filter.value.status == s.status.value
  {
    QueryVariables(s.limit, s.offset, FilterFor(s.status))
  }

  /** Changing the status filter: the new filter applies and paging restarts at page 1. */
  function ChangeStatus(s: ListState, value: string): (r: ListState)
    ensures r.page == 1 && r.offset == 0 && r.limit == s.limit
    ensures r.status.None? <==> value == ""
    ensures r.status.Some? ==> r.status.value == value
    ensures Variables(r).filter == (if value == "" then None else Some(Filter(value)))
  {
    SyncOffset(s.(status := NullIfEmpty(value), page := 1))
  }

  /** Every option of the status select yields the filter on that status; "All" yields none. */
  lemma SelectOptionsFilter(s: ListState, st: NewsStatus)
    ensures Variables(ChangeStatus(s, StatusName(st))).filter == Some(Filter(StatusName(st)))
    ensures Variables(ChangeStatus(s, "")).filter.None?
  {
    StatusNameRoundTrip(st);
  }

  /** `disabled={page === 1}`: on a valid state, exactly when no earlier row exists. */
  function PrevDisabled(s: ListState): (r: bool)
    ensures Valid(s) ==> (r <==> s.offset == 0)
  {
    s.page == 1
  }

  /** `disabled={page * limit >= total}`: on a valid state, exactly when no row follows this page. */
  function NextDisabled(s: ListState, total: int): (r: bool)
    ensures Valid(s) ==> (r <==> s.offset + s.limit >= total)
  {
    s.page * s.limit >= total
  }

  /** The pagination controls are rendered only when the results do not fit one page. */
  function PaginationShown(s: ListState, total: int): (r: bool)
    ensures Valid(s) && s.page == 1 ==> (r <==> !NextDisabled(s, total))
    ensures Valid(s) ==> (r <==> !NextDisabled(s.(page := 1, offset := 0), total))
  {
    total > s.limit
  }

  /** With the controls hidden, the first page already holds every result: there is no next page to miss. */
  lemma HiddenPaginationLosesNothing(s: ListState, total: int)
    requires Valid(s) && s.page == 1 && !PaginationShown(s, total)
    ensures NextDisabled(s, total)
    ensures RangeEnd(s, total) == total
  {
  }

  /** "Previous": one page back, never below page 1. */
  function Prev(s: ListState): (r: ListState)
    ensures r.page >= 1
    ensures s.page >= 1 ==> r.page <= s.page
    ensures s.page >= 1 ==> (r.page == s.page <==> PrevDisabled(s))
    ensures s.page > 1 ==> r.page == s.page - 1
    ensures r.offset == (r.page - 1) * r.limit
    ensures r.(page := s.page, offset := s.offset) == s
  {
    SyncOffset(s.(page := if s.page - 1 > 1 then s.page - 1 else 1))
  }

  /** Clicking "Next": a disabled button does nothing, an enabled one moves one page on. */
  function ClickNext(s: ListState, total: int): (r: ListState)
    ensures NextDisabled(s, total) ==> r == s
    ensures !NextDisabled(s, total) ==> r.page == s.page + 1 && r.offset == s.page * s.limit
    ensures r.(page := s.page, offset := s.offset) == s
  {
    if NextDisabled(s, total) then s else SyncOffset(s.(page := s.page + 1))
  }

  /** Clicking "Previous": a disabled button does nothing. */
  function ClickPrev(s: ListState): (r: ListState)
    ensures PrevDisabled(s) ==> r == s
    ensures !PrevDisabled(s) ==> r == Prev(s)
  {
    if PrevDisabled(s) then s else Prev(s)
  }

  /** Every transition keeps the state valid, starting from the initial one. */
  lemma TransitionsKeepValid(s: ListState, value: string, total: int)
    requires Valid(s)
    ensures Valid(InitialList)
    ensures Valid(ChangeStatus(s, value))
    ensures Valid(Prev(s)) && Valid(ClickPrev(s))
    ensures Valid(ClickNext(s, total))
  {
  }

  /** An enabled "Next" lands on a page that starts inside the result set. */
  lemma NextStaysInRange(s: ListState, total: int)
    requires Valid(s) && !NextDisabled(s, total)
    ensures ClickNext(s, total).offset < total
  {
  }

  /** "Previous" undoes an enabled "Next". */
  lemma PrevUndoesNext(s: ListState, total: int)
    requires Valid(s) && !NextDisabled(s, total)
    ensures ClickPrev(ClickNext(s, total)) == s
  {
  }

  /** "Next" undoes an enabled "Previous" while the current page starts inside the results. */
  lemma NextUndoesPrev(s: ListState, total: int)
    requires Valid(s) && !PrevDisabled(s) && s.offset < total
    ensures ClickNext(ClickPrev(s), total) == s
  {
  }

  /** First row number of "Showing X to Y of Z". */
  function RangeStart(s: ListState): (r: int)
    ensures Valid(s) ==> r == s.offset + 1
  {
    (s.page - 1) * s.limit + 1
  }

  /** Last row number of "Showing X to Y of Z". */
  function RangeEnd(s: ListState, total: int): (r: int)
    ensures r <= total && r <= s.page * s.limit
    ensures r == total || r == s.page * s.limit
  {
    if s.page * s.limit < total then s.page * s.limit else total
  }

  /**
   * The range never reaches past the total; on a page that starts inside the
   * results it is non-empty, and it counts at most one page of rows.
   */
  lemma RangeBounds(s: ListState, total: int)
    requires Valid(s)
    ensures RangeEnd(s, total) <= total
    ensures s.offset < total ==> 1 <= RangeStart(s) <= RangeEnd(s, total)
    ensures s.offset < total ==> RangeEnd(s, total) - RangeStart(s) + 1 == Min(s.limit, total - s.offset)
  {
  }

  function Min(a: int, b: int): int {
    if a <= b then a else b
  }

  /** "Next" is enabled exactly when rows remain after the displayed range. */
  lemma NextEnabledIffRowsRemain(s: ListState, total: int)
    requires Valid(s)
    ensures !NextDisabled(s, total) <==> RangeEnd(s, total) < total
  {
  }

  // ----- Status badge -----

  const GreenBadge := "bg-green-100 text-green-800"
  const GrayBadge := "bg-gray-100 text-gray-800"
  const YellowBadge := "bg-yellow-100 text-yellow-800"

  /** The badge of a known status. */
  function BadgeOf(st: NewsStatus): string {
    match st
    case PUBLISHED => GreenBadge
    case DRAFT => GrayBadge
    case ARCHIVED => YellowBadge
  }

  /** The badge class of any status string: the known statuses get theirs, anything else gray. */
  function BadgeClass(status: string): (r: string)
    ensures ParseStatus(status).Some? ==> r == BadgeOf(ParseStatus(status).value)
    ensures ParseStatus(status).None? ==> r == GrayBadge
  {
    match status
    case "PUBLISHED" => GreenBadge
    case "DRAFT" => GrayBadge
    case "ARCHIVED" => YellowBadge
    case _ => GrayBadge
  }

  /** Draft and unknown statuses share the gray badge; published and archived are told apart from it and from each other. */
  lemma BadgeClasses(status: string)
    ensures BadgeClass(status) == GrayBadge <==> status != "PUBLISHED" && status != "ARCHIVED"
    ensures BadgeClass("PUBLISHED") != BadgeClass("ARCHIVED")
  {
  }

  // ----- Row display -----

  /** A reference to a related record by id and name. */
  datatype Ref = Ref(id: string, name: string)

  /** A row of the list, as the query returns it. */
  datatype NewsItem = NewsItem(
    id: string,
    title: string,
    summary: string,
    status: string,
    publishDate: string,
    createdAt: string,
    author: Option<Ref>,
    category: Option<Ref>)

  /** The date shown: the publish date, or the creation date when there is none. */
  function DisplayDate(item: NewsItem): (r: string)
    ensures item.publishDate != "" ==> r == item.publishDate
    ensures item.publishDate == "" ==> r == item.createdAt
  {
    OrElse(Some(item.publishDate), item.createdAt)
  }

  /** `ref?.name || fallback`. */
  function NameOr(ref: Option<Ref>, fallback: string): (r: string)
    ensures ref.Some? && ref.value.name != "" ==> r == ref.value.name
    ensures ref.None? || ref.value.name == "" ==> r == fallback
  {
    OrElse(if ref.Some? then Some(ref.value.name) else None, fallback)
  }

  function CategoryLabel(item: NewsItem): string {
    NameOr(item.category, "Uncategorized")
  }

  function AuthorLabel(item: NewsItem): string {
    NameOr(item.author, "Unknown")
  }

  /** The category and author columns are never blank. */
  lemma LabelsNeverEmpty(item: NewsItem)
    ensures CategoryLabel(item) != "" && AuthorLabel(item) != ""
    ensures item.category.Some? && item.category.value.name != "" ==> CategoryLabel(item) == item.category.value.name
    ensures item.author.Some? && item.author.value.name != "" ==> AuthorLabel(item) == item.author.value.name
  {
  }
}

=== FILE: profile.dfy ===
/**
 * The profile page's submit handler: the password-mismatch guard, the update
 * input, merging the server's answer into the session user, and resetting the
 * password fields. The mutation is abstracted as its outcome.
 */
module Profile {
  import opened Wrappers
  import opened Text
  import opened Domain

  /** A field of a JavaScript object: key absent, present with `null`, or present with a value. */
  datatype Slot<T> = Missing | Null | Val(value: T)

  /** The session user; the server's `updateUser` answer has the same shape. */
  datatype User = User(
    id: Slot<string>,
    name: Slot<string>,
    email: Slot<string>,
    role: Slot<UserRole>,
    createdAt: Slot<string>,
    updatedAt: Slot<string>)

  /** `{}`: what spreading a null user contributes. */
  const NoFields := User(Missing, Missing, Missing, Missing, Missing, Missing)

  /** The page's form state. */
  datatype ProfileForm = ProfileForm(
    name: string,
    email: string,
    currentPassword: string,
    newPassword: string,
    confirmPassword: string)

  /** A password change: the current password and the new one. */
  datatype PasswordChange = PasswordChange(currentPassword: string, password: string)

  /** The update mutation's `input`: name and email, plus a password change when one is asked for. */
  datatype UpdateInput = UpdateInput(name: string, email: string, password: Option<PasswordChange>)

  /** The mutation's variables: the user id (`user?.id`) and the input. */
  datatype UpdateRequest = UpdateRequest(id: Slot<string>, input: UpdateInput)

  /** A login call: the user and the token handed to the session store. */
  datatype Session = Session(user: User, token: string)

  /** How the mutation ended: it threw, or it resolved with or without `updateUser` in its data. */
  datatype Outcome = Failed | Resolved(updateUser: Option<User>)

  /** What one submit does. */
  datatype ProfileStep = ProfileStep(
    form: ProfileForm,
    successMessage: string,
    alerted: bool,
    sent: Option<UpdateRequest>,
    login: Option<Session>)

  const MismatchAlert := "New passwords don't match"
  const UpdatedMessage := "Profile updated successfully"

  /** `slot || ''` for a string field. */
  function SlotOrEmpty(s: Slot<string>): string {
    if s.Val? then s.value else ""
  }

  /** The form the page mounts with: name and email from the user, or '', and no passwords. */
  function InitialForm(user: Option<User>): (f: ProfileForm)
    ensures f.currentPassword == "" && f.newPassword == "" && f.confirmPassword == ""
    ensures user.None? ==> f.name == "" && f.email == ""
    ensures user.Some? && user.value.name.Val? ==> f.name == user.value.name.value
    ensures user.Some? && user.value.email.Val? ==> f.email == user.value.email.value
    ensures user.Some? && !user.value.name.Val? ==> f.name == ""
    ensures user.Some? && !user.value.email.Val? ==> f.email == ""
  {
    var u := user.GetOr(NoFields);
    ProfileForm(SlotOrEmpty(u.name), SlotOrEmpty(u.email), "", "", "")
  }

  /** A new password was typed and the confirmation differs from it. */
  function PasswordMismatch(f: ProfileForm): (r: bool)
    ensures f.newPassword == "" ==> !r
    ensures f.newPassword == f.confirmPassword ==> !r
    ensures f.newPassword != "" && f.confirmPassword != f.newPassword ==> r
  {
    f.newPassword != "" && f.newPassword != f.confirmPassword
  }

  /** The update input: a password change is included exactly when a new password was typed. */
  function BuildInput(f: ProfileForm): (input: UpdateInput)
    ensures input.name == f.name && input.email == f.email
    ensures input.password.None? <==> f.newPassword == ""
    ensures input.password.Some? ==>
      input.password.value.currentPassword == f.currentPassword && input.password.value.password == f.newPassword
  {
    UpdateInput(f.name, f.email, if f.newPassword != "" then Some(PasswordChange(f.currentPassword, f.newPassword)) else None)
  }

  /** One field of `{ ...base, ...over }`: a key the answer carries wins, even with `null`. */
  function MergeSlot<T>(base: Slot<T>, over: Slot<T>): Slot<T> {
    if over.Missing? then base else over
  }

  /** `{ ...user, ...answer }`. */
  function Merge(user: User, answer: User): (r: User)
    ensures answer.name != Missing ==> r.name == answer.name
    ensures answer.name == Missing ==> r.name == user.name
    ensures answer.email != Missing ==> r.email == answer.email
    ensures answer.email == Missing ==> r.email == user.email
  {
    User(MergeSlot(user.id, answer.id), MergeSlot(user.name, answer.name), MergeSlot(user.email, answer.email),
         MergeSlot(user.role, answer.role), MergeSlot(user.createdAt, answer.createdAt),
         MergeSlot(user.updatedAt, answer.updatedAt))
  }

  /** Every field of the merge comes from the answer when the answer has that key, from the user otherwise. */
  lemma MergeFieldwise(user: User, answer: User)
    ensures var r := Merge(user, answer);
      && (r.id == if answer.id.Missing? then user.id else answer.id)
      && (r.role == if answer.role.Missing? then user.role else answer.role)
      && (r.createdAt == if answer.createdAt.Missing? then user.createdAt else answer.createdAt)
      && (r.updatedAt == if answer.updatedAt.Missing? then user.updatedAt else answer.updatedAt)
  {
  }

  /** Merging the same answer again changes nothing, and an empty answer keeps the user. */
  lemma MergeIdempotent(user: User, answer: User)
    ensures Merge(Merge(user, answer), answer) == Merge(user, answer)
    ensures Merge(user, NoFields) == user
  {
  }

  /** The form after a successful update: passwords cleared, name and email kept. */
  function ResetPasswords(f: ProfileForm): (r: ProfileForm)
    ensures r.name == f.name && r.email == f.email
    ensures r.currentPassword == "" && r.newPassword == "" && r.confirmPassword == ""
  {
    f.(currentPassword := "", newPassword := "", confirmPassword := "")
  }

  /**
   * Submit. The success message is cleared first. A mismatching new password
   * alerts and stops. Otherwise the request is sent; only an answer carrying
   * `updateUser` logs the merged user in (token kept, or '' when absent), shows
   * the success message and clears the password fields.
   */
  function Submit(f: ProfileForm, user: Option<User>, token: Option<string>, outcome: Outcome): (r: ProfileStep)
    ensures PasswordMismatch(f) ==> r == ProfileStep(f, "", true, None, None)
    ensures !PasswordMismatch(f) ==> !r.alerted
    ensures !PasswordMismatch(f) ==>
      r.sent == Some(UpdateRequest(if user.Some? then user.value.id else Missing, BuildInput(f)))
    ensures !PasswordMismatch(f) && outcome.Resolved? && outcome.updateUser.Some? ==>
      && r.login == Some(Session(Merge(user.GetOr(NoFields), outcome.updateUser.value), OrElse(token, "")))
      && r.successMessage == UpdatedMessage
      && r.form == ResetPasswords(f)
    ensures !(outcome.Resolved? && outcome.updateUser.Some?) ==>
      r.login.None? && r.successMessage == "" && r.form == f
  {
    if PasswordMismatch(f) then ProfileStep(f, "", true, None, None)
    else
      var sent := Some(UpdateRequest(if user.Some? then user.value.id else Missing, BuildInput(f)));
      match outcome
      case Resolved(Some(answer)) =>
        var session := Session(Merge(user.GetOr(NoFields), answer), OrElse(token, ""));
        ProfileStep(ResetPasswords(f), UpdatedMessage, false, sent, Some(session))
      case _ => ProfileStep(f, "", false, sent, None)
  }

  /** The success message is shown exactly when the update went through and the server answered with the user. */
  lemma SuccessMessageIffUpdated(f: ProfileForm, user: Option<User>, token: Option<string>, outcome: Outcome)
    ensures var r := Submit(f, user, token, outcome);
      r.successMessage != "" <==> !PasswordMismatch(f) && outcome.Resolved? && outcome.updateUser.Some?
    ensures var r := Submit(f, user, token, outcome);
      r.login.Some? <==> r.successMessage != ""
  {
  }

  /** After a successful update a second submit sends no password change and cannot hit the mismatch guard. */
  lemma ResubmitAfterSuccess(f: ProfileForm, user: Option<User>, token: Option<string>, answer: User)
    requires !PasswordMismatch(f)
    ensures var r := Submit(f, user, token, Resolved(Some(answer)));
      && !PasswordMismatch(r.form)
      && BuildInput(r.form) == UpdateInput(f.name, f.email, None)
  {
  }
}

=== FILE: seqs.dfy ===
/**
 * The two list operations the components share: `list.filter(x => x !== v)`
 * (tag removal, sidebar collapse) and the duplicate-free invariant that
 * `includes`-guarded appends keep.
 */
module Seqs {

  /** No value occurs twice. */
  predicate NoDuplicates<T(==)>(s: seq<T>) {
    forall i, j :: 0 <= i < j < |s| ==> s[i] != s[j]
  }

  /** `s.filter(y => y !== x)`: every occurrence of `x` goes, every other element stays. */
  function RemoveAll<T(==)>(s: seq<T>, x: T): (r: seq<T>)
    ensures x !in r
    ensures forall i :: 0 <= i < |r| ==> r[i] in s && r[i] != x
    ensures forall i :: 0 <= i < |s| && s[i] != x ==> s[i] in r
    ensures |r| <= |s|
  {
    if s == [] then []
    else if s[0] == x then RemoveAll(s[1..], x)
    else [s[0]] + RemoveAll(s[1..], x)
  }

  /** Removal works block by block, so the survivors keep their relative order. */
  lemma {:induction false} RemoveAllAppend<T>(a: seq<T>, b: seq<T>, x: T)
    ensures RemoveAll(a + b, x) == RemoveAll(a, x) + RemoveAll(b, x)
  {
    if a == [] {
      assert a + b == b;
    } else {
      assert (a + b)[0] == a[0];
      assert (a + b)[1..] == a[1..] + b;
      RemoveAllAppend(a[1..], b, x);
    }
  }

  /** Exactly the occurrences of `x` are dropped: every other value keeps its count. */
  lemma {:induction false} RemoveAllCounts<T>(s: seq<T>, x: T)
    ensures multiset(RemoveAll(s, x)) == multiset(s)[x := 0]
  {
    if s != [] {
      assert s == [s[0]] + s[1..];
      RemoveAllCounts(s[1..], x);
    }
  }

  /** Removing a value that is absent changes nothing. */
  lemma {:induction false} RemoveAllAbsent<T>(s: seq<T>, x: T)
    requires x !in s
    ensures RemoveAll(s, x) == s
  {
    if s != [] {
      RemoveAllAbsent(s[1..], x);
      assert [s[0]] + s[1..] == s;
    }
  }

  /** Removal keeps a list duplicate-free. */
  lemma {:induction false} RemoveAllNoDuplicates<T>(s: seq<T>, x: T)
    requires NoDuplicates(s)
    ensures NoDuplicates(RemoveAll(s, x))
  {
    if s != [] {
      assert NoDuplicates(s[1..]) by {
        forall i, j | 0 <= i < j < |s[1..]| ensures s[1..][i] != s[1..][j] {
          assert s[1..][i] == s[i + 1] && s[1..][j] == s[j + 1];
        }
      }
      RemoveAllNoDuplicates(s[1..], x);
      if s[0] != x {
        var rest := RemoveAll(s[1..], x);
        assert s[0] !in s[1..] by {
          forall k | 0 <= k < |s[1..]| ensures s[1..][k] != s[0] {
            assert s[1..][k] == s[k + 1];
          }
        }
        assert s[0] !in rest;
        ConsNoDuplicates(s[0], rest);
      }
    }
  }

  lemma ConsNoDuplicates<T>(x: T, s: seq<T>)
    requires NoDuplicates(s) && x !in s
    ensures NoDuplicates([x] + s)
  {
  }

  /** Appending a value that is not yet present keeps a list duplicate-free. */
  lemma AppendNoDuplicates<T>(s: seq<T>, x: T)
    requires NoDuplicates(s) && x !in s
    ensures NoDuplicates(s + [x])
  {
  }

  /** Appending `x` and then removing every `x` gives back a list that did not hold `x`. */
  lemma RemoveAllAfterAppend<T>(s: seq<T>, x: T)
    requires x !in s
    ensures RemoveAll(s + [x], x) == s
  {
    RemoveAllAppend(s, [x], x);
    RemoveAllAbsent(s, x);
    assert RemoveAll([x], x) == [];
  }
}

=== FILE: sidebar.dfy ===
/**
 * The sidebar: a fixed navigation table, the list of expanded group sections,
 * and the predicates that decide what is rendered and highlighted.
 */
module Sidebar {
  import opened Wrappers
  import opened Seqs

  /** A link inside a group section. */
  datatype NavItem = NavItem(name: string, href: string, badge: Option<string>)

  /**
   * A top-level entry: either a direct link (href and icon) or a named group
   * of items that can be expanded and collapsed.
   */
  datatype NavSection = NavSection(name: string, items: Option<seq<NavItem>>, href: Option<string>, hasIcon: bool)

  const Navigation: seq<NavSection> := [
    NavSection("Dashboards", None, Some("/dashboard"), true),
    NavSection("USER", Some([
      NavItem("Public Profile", "/dashboard/profile", None),
      NavItem("My Account", "/dashboard/account", None),
      NavItem("Network", "/dashboard/network", None),
      NavItem("Authentication", "/dashboard/auth", None)]), None, false),
    NavSection("APPS", Some([
      NavItem("User Management", "/dashboard/users", Some("Soon")),
      NavItem("Projects", "/dashboard/projects", Some("Soon")),
      NavItem("eCommerce", "/dashboard/ecommerce", Some("Soon"))]), None, false),
    NavSection("MISCELLANEOUS", Some([
      NavItem("Modals", "/dashboard/modals", Some("Soon")),
      NavItem("Wizards", "/dashboard/wizards", Some("Soon"))]), None, false)
  ]

  /** The expanded list the sidebar mounts with. */
  const InitialExpanded: seq<string> := ["USER", "APPS", "MISCELLANEOUS"]

  /** `item.href && item.icon`: the entry renders as a direct link rather than as a group. */
  function IsLink(sec: NavSection): (r: bool)
    ensures r ==> sec.hasIcon && sec.href.Some?
    ensures sec.href == Some("") ==> !r
    ensures sec.hasIcon && sec.href.Some? && |sec.href.value| > 0 ==> r
  {
    sec.href.Some? && sec.href.value != "" && sec.hasIcon
  }

  /** The names of the entries rendered as groups, in table order. */
  function GroupNames(nav: seq<NavSection>): (r: seq<string>)
    ensures |r| <= |nav|
    ensures forall n :: n in r <==> exists i :: 0 <= i < |nav| && !IsLink(nav[i]) && nav[i].name == n
  {
    if nav == [] then []
    else (if IsLink(nav[0]) then [] else [nav[0].name]) + GroupNames(nav[1..])
  }

  /** Initially every group of the table is expanded, each once. */
  lemma InitiallyAllGroupsExpanded()
    ensures InitialExpanded == GroupNames(Navigation)
    ensures NoDuplicates(InitialExpanded)
  {
    var nav := Navigation;
    assert nav[3..][1..] == [];
    assert GroupNames(nav[3..]) == ["MISCELLANEOUS"];
    assert nav[2..][1..] == nav[3..];
    assert GroupNames(nav[2..]) == ["APPS", "MISCELLANEOUS"];
    assert nav[1..][1..] == nav[2..];
    assert GroupNames(nav[1..]) == InitialExpanded;
  }

  /** Clicking a group header: present sections are removed, absent ones appended. */
  function Toggle(expanded: seq<string>, section: string): (r: seq<string>)
    ensures section in expanded ==> section !in r
    ensures section !in expanded ==> r == expanded + [section]
    ensures forall other :: other != section ==> (other in r <==> other in expanded)
  {
    if section in expanded then RemoveAll(expanded, section) else expanded + [section]
  }

  /** Toggling keeps the expanded list duplicate-free. */
  lemma ToggleKeepsNoDuplicates(expanded: seq<string>, section: string)
    requires NoDuplicates(expanded)
    ensures NoDuplicates(Toggle(expanded, section))
  {
    if section in expanded {
      RemoveAllNoDuplicates(expanded, section);
    } else {
      AppendNoDuplicates(expanded, section);
    }
  }

  /**
   * Toggling twice restores membership; starting from a collapsed section it
   * restores the exact list.
   */
  lemma ToggleTwice(expanded: seq<string>, section: string)
    ensures forall name :: name in Toggle(Toggle(expanded, section), section) <==> name in expanded
    ensures section !in expanded ==> Toggle(Toggle(expanded, section), section) == expanded
  {
    if section !in expanded {
      RemoveAllAfterAppend(expanded, section);
    }
  }

  /** A group's items are rendered exactly when its name is expanded (and it has items). */
  function ItemsShown(sec: NavSection, expanded: seq<string>): (r: bool)
    ensures IsLink(sec) || sec.items.None? ==> !r
    ensures r ==> sec.name in expanded
  {
    !IsLink(sec) && sec.name in expanded && sec.items.Some?
  }

  /** Toggling a group's header flips whether its items are shown and leaves every other group alone. */
  lemma ToggleFlipsItemsShown(sec: NavSection, other: NavSection, expanded: seq<string>)
    requires !IsLink(sec) && sec.items.Some?
    requires other.name != sec.name
    ensures ItemsShown(sec, Toggle(expanded, sec.name)) <==> !ItemsShown(sec, expanded)
    ensures ItemsShown(other, Toggle(expanded, sec.name)) <==> ItemsShown(other, expanded)
  {
  }

  /** A link is highlighted exactly when the current path is its href. */
  function IsActive(pathname: string, href: string): (r: bool)
    ensures r <==> |pathname| == |href| && forall i :: 0 <= i < |href| ==> pathname[i] == href[i]
  {
    pathname == href
  }
}

=== FILE: text.dfy ===
/**
 * Strings as the forms see them: ECMAScript's `String.prototype.trim` and the
 * truthiness test `value || fallback` on a string that may be missing.
 */
module Text {
  import opened Wrappers

  /** The WhiteSpace and LineTerminator code points that `trim()` strips (ECMA-262, section 22.1.3.32). */
  predicate IsWhitespace(c: char) {
    || c == '\t' || c == '\n' || c == '\U{B}' || c == '\U{C}' || c == '\r' || c == ' '
    || c == '\U{A0}' || c == '\U{1680}' || ('\U{2000}' <= c <= '\U{200A}')
    || c == '\U{2028}' || c == '\U{2029}' || c == '\U{202F}' || c == '\U{205F}'
    || c == '\U{3000}' || c == '\U{FEFF}'
  }

  /** A string made of whitespace only: `s.trim()` is '' and therefore falsy. */
  predicate IsBlank(s: string) {
    forall i :: 0 <= i < |s| ==> IsWhitespace(s[i])
  }

  /** No whitespace at either end. */
  predicate IsTrimmed(s: string) {
    s == [] || (!IsWhitespace(s[0]) && !IsWhitespace(s[|s| - 1]))
  }

  /** The first index at or after `i` that does not hold whitespace, or `|s|` when there is none. */
  function SkipBlanks(s: string, i: nat): (n: nat)
    requires i <= |s|
    ensures i <= n <= |s|
    ensures forall k :: i <= k < n ==> IsWhitespace(s[k])
    ensures n == |s| || !IsWhitespace(s[n])
    decreases |s| - i
  {
    if i == |s| || !IsWhitespace(s[i]) then i else SkipBlanks(s, i + 1)
  }

  /** The index just past the last character before `j` that is not whitespace, or 0 when there is none. */
  function SkipBlanksBack(s: string, j: nat): (n: nat)
    requires j <= |s|
    ensures n <= j
    ensures forall k :: n <= k < j ==> IsWhitespace(s[k])
    ensures n == 0 || !IsWhitespace(s[n - 1])
  {
    if j == 0 || !IsWhitespace(s[j - 1]) then j else SkipBlanksBack(s, j - 1)
  }

  /** Drops the leading whitespace: what is left is a suffix of `s` preceded by blanks only. */
  function TrimStart(s: string): (r: string)
    ensures |r| <= |s| && r == s[|s| - |r|..]
    ensures IsBlank(s[..|s| - |r|])
    ensures r == [] || !IsWhitespace(r[0])
  {
    s[SkipBlanks(s, 0)..]
  }

  /** Drops the trailing whitespace: what is left is a prefix of `s` followed by blanks only. */
  function TrimEnd(s: string): (r: string)
    ensures |r| <= |s| && r == s[..|r|]
    ensures IsBlank(s[|r|..])
    ensures r == [] || !IsWhitespace(r[|r| - 1])
  {
    var n := SkipBlanksBack(s, |s|);
    assert forall k :: 0 <= k < |s| - n ==> s[n..][k] == s[n + k];
    s[..n]
  }

  /** `s.trim()`: no whitespace left at either end, and empty exactly when `s` is blank. */
  function Trim(s: string): (r: string)
    ensures |r| <= |s|
    ensures IsTrimmed(r)
    ensures r == [] <==> IsBlank(s)
  {
    TrimEmptyIffBlank(s);
    TrimEnd(TrimStart(s))
  }

  lemma TrimEmptyIffBlank(s: string)
    ensures IsTrimmed(TrimEnd(TrimStart(s)))
    ensures TrimEnd(TrimStart(s)) == [] <==> IsBlank(s)
  {
    var t := TrimStart(s);
    var r := TrimEnd(t);
    var p := |s| - |t|;
    assert r != [] ==> r[0] == t[0];
    assert t != [] ==> t[0] == s[p];
    assert t[0..] == t;
    assert s[..|s|] == s;
  }

  /** `value || fallback` for a string that may be missing: missing and '' both fall back. */
  function OrElse(value: Option<string>, fallback: string): (r: string)
    ensures value.Some? && value.value != "" ==> r == value.value
    ensures value.None? || value.value == "" ==> r == fallback
  {
    if value.Some? && value.value != "" then value.value else fallback
  }

  /** `value || null`: an empty string becomes absent, any other is kept; no information is lost. */
  function NullIfEmpty(s: string): (r: Option<string>)
    ensures r.None? <==> s == ""
    ensures OrElse(r, "") == s
  {
    if s == "" then None else Some(s)
  }

  /** Skipping a run of whitespace lands on the first index past the run, whatever computes it. */
  lemma SkipBlanksLandsPastRun(s: string, i: nat, m: nat)
    requires i <= m <= |s|
    requires forall k :: i <= k < m ==> IsWhitespace(s[k])
    requires m == |s| || !IsWhitespace(s[m])
    ensures SkipBlanks(s, i) == m
  {
  }

  lemma SkipBlanksBackLandsBeforeRun(s: string, j: nat, m: nat)
    requires m <= j <= |s|
    requires forall k :: m <= k < j ==> IsWhitespace(s[k])
    requires m == 0 || !IsWhitespace(s[m - 1])
    ensures SkipBlanksBack(s, j) == m
  {
  }

  lemma TrimStartSkipsBlankPrefix(a: string, t: string)
    requires IsBlank(a)
    requires t == [] || !IsWhitespace(t[0])
    ensures TrimStart(a + t) == t
  {
    var s := a + t;
    assert forall k :: 0 <= k < |a| ==> s[k] == a[k];
    assert t != [] ==> s[|a|] == t[0];
    SkipBlanksLandsPastRun(s, 0, |a|);
    assert s[|a|..] == t;
  }

  lemma TrimEndSkipsBlankSuffix(t: string, b: string)
    requires IsBlank(b)
    requires t == [] || !IsWhitespace(t[|t| - 1])
    ensures TrimEnd(t + b) == t
  {
    var s := t + b;
    assert forall k :: |t| <= k < |s| ==> s[k] == b[k - |t|];
    assert t != [] ==> s[|t| - 1] == t[|t| - 1];
    SkipBlanksBackLandsBeforeRun(s, |s|, |t|);
    assert s[..|t|] == t;
  }

  lemma BlankConcat(a: string, b: string)
    requires IsBlank(a) && IsBlank(b)
    ensures IsBlank(a + b)
  {
  }

  /**
   * `trim()` is characterised independently of how it is computed: whatever blank
   * prefix and suffix surround a trimmed core, trimming yields exactly that core.
   */
  lemma TrimCharacterization(a: string, m: string, b: string)
    requires IsBlank(a) && IsTrimmed(m) && IsBlank(b)
    ensures Trim(a + m + b) == m
  {
    if m == [] {
      assert a + m + b == a + b;
      BlankConcat(a, b);
    } else {
      assert a + m + b == a + (m + b);
      TrimStartSkipsBlankPrefix(a, m + b);
      TrimEndSkipsBlankSuffix(m, b);
    }
  }

  /** A string without whitespace at its ends is its own trim. */
  lemma TrimOfTrimmed(m: string)
    requires IsTrimmed(m)
    ensures Trim(m) == m
  {
    assert SkipBlanks(m, 0) == 0 && m[0..] == m;
    assert SkipBlanksBack(m, |m|) == |m| && m[..|m|] == m;
  }

  /** Trimming twice is trimming once. */
  lemma TrimIdempotent(s: string)
    ensures Trim(Trim(s)) == Trim(s)
  {
    TrimOfTrimmed(Trim(s));
  }
}

=== FILE: wrappers.dfy ===
/** Optional values: JavaScript's `null` / `undefined` next to a present value. */
module Wrappers {

  datatype Option<+T> = None | Some(value: T) {

    /** The present value, or `default` when absent. */
    function GetOr(default: T): T {
      match this
      case Some(v) => v
      case None => default
    }
  }
}
